=== FILE: README.md ===
# Audit-trail reader and duplicate-drop interceptor, modelled in Dafny

This project models two parts of the Flume audit-database agent: the reliable
Oracle audit-event reader and the interceptor that drops duplicated events.

**The reader.** `ReliableOracleAuditEventReader` polls Oracle's unified audit
trail incrementally. It learns the table's columns once and resolves the
1-based position of the column to commit. It then builds a query that selects
the rows past the last committed value, in commit-column order. Each fetched
row becomes an audit event: one field per column, with the field's kind
chosen by the column's JDBC type code. Timestamps are cut to 23 characters,
with every space turned into `T`. The commit column's text of the last row
read waits in `last_value`. `commit` promotes it to `committed_value` and
overwrites a checkpoint file with it. On start-up, `loadLastCommittedValue`
reads the first 60 characters of that file back and trims them. It keeps the
result only when more than one character remains.

**The interceptor.** `DropDuplicatedEventsInterceptor` fingerprints each event
from its headers, its body or both (XOR), or with 0 when neither is checked.
It remembers recent fingerprints in a size-limited set. It drops an event
whose fingerprint is still remembered and passes every other event on. A
batch is filtered event by event, in order.

Modules, one per concern:

- `Wrappers`: `Option` and `Result`.
- `SqlTypes`: the type codes and the two dispatch tables on them.
- `Query`: `createQuery` as a pure function, and the round trip from a query
  back to the committed value it embeds.
- `Checkpoint`: how the checkpoint file's text becomes the committed value.
- `RowMapping`: row-to-event mapping and timestamp normalisation.
- `Reader`: the column lookup, a pure specification `PullRows` of
  `readEvents`, and the class `AuditEventReader`.
- `BoundedSets`: the size-limited set, as a value.
- `Interceptor`: the fingerprint, a pure specification `FilterBatch` of batch
  interception, and the class `DropDuplicatedEventsInterceptor`.

The database is a parameter of the reader's methods: a function from a query
text to the rows it returns, in order. The checkpoint file is a field holding
the file's text, or `None` while the file does not exist.

With neither part checked, every fingerprint is 0. When the capacity is above
0, a batch that starts from a set without 0 (such as the empty set
`initialize` creates) passes its first event and drops every later one;
`UncheckedEventsCollapse` proves this. The comment in the source
says instead that all events will be removed. Under the assumed first-in,
first-out set, a capacity of 0 remembers nothing and every event passes;
`ZeroCapacityPassesAll` proves this.

The reader's tests compare `createQuery` with literal strings. Those tests
exercise the sibling JDBC reader, which builds queries with the same rules.
Two of those strings are proved here verbatim. The literal formats are proved
for all inputs by `CreateQueryLiteral`, and the commit/load tests by
`SaveLoadRoundTrip` and `CommitSurvivesRestart`.

## Model

| member | source | states |
|---|---|---|
| SqlTypes.LiteralStyleAgreesWithColumnKind | src/main/java/ch/cern/db/audit/flume/source/reader/ReliableOracleAuditEventReader.java:251-269 | the query's literal format and readEvent's getter choice agree: numeric and boolean codes are unquoted, both timestamp codes are TIMESTAMP literals, every other code is quoted text (both directions) |
| Query.CreateQuery | src/main/java/ch/cern/db/audit/flume/source/reader/ReliableOracleAuditEventReader.java:237-275 | no contract of its own; the query text is specified by CreateQueryShape, CreateQueryLiteral and CommittedValueRoundTrip below |
| Query.CreateQueryShape | src/main/java/ch/cern/db/audit/flume/source/reader/ReliableOracleAuditEventReader.java:243-274 | a configured query is returned verbatim; otherwise the query starts with `SELECT * FROM <table>` and ends with ` ORDER BY <column>`, and it is exactly those two joined if and only if there is no committed value |
| Query.CreateQueryLiteral | src/main/java/ch/cern/db/audit/flume/source/reader/ReliableOracleAuditEventReader.java:249-272 | with a committed value `v`, the query is `SELECT * FROM t WHERE c > <lit> ORDER BY c`, where `<lit>` is `v` for the eight numeric/boolean codes, `TIMESTAMP 'v'` for codes 93 and -102, and `'v'` for all other codes |
| Query.UnliteralLiteral | src/main/java/ch/cern/db/audit/flume/source/reader/ReliableOracleAuditEventReader.java:251-269 | each of the three literal formats can be undone: the committed value is recovered from its literal |
| Query.CommittedValueRoundTrip | src/main/java/ch/cern/db/audit/flume/source/reader/ReliableOracleAuditEventReader.java:246-274 | a generated query determines its committed value: reading the WHERE literal back gives the value it was built from, and a query without a WHERE clause reads back as none |
| Query.CreateQueryExamples | src/test/java/ch/cern/db/audit/flume/source/reader/ReliableJdbcAuditEventReaderTests.java:205-221 | the expected strings of the unit tests for a configured query and for a query without a committed value |
| Checkpoint.Trim | src/main/java/ch/cern/db/audit/flume/source/reader/ReliableOracleAuditEventReader.java:146 | String.trim: the result is a slice of the input with only characters at or below U+0020 before and after it, and has no such character at either end; it is the input when that is already trimmed, and empty for an all-blank input |
| Checkpoint.ReadBuffer | src/main/java/ch/cern/db/audit/flume/source/reader/ReliableOracleAuditEventReader.java:143-146 | the string built from the read buffer has 60 characters: the first min(length, 60) characters of the file, then NUL characters |
| Checkpoint.LoadedValue | src/main/java/ch/cern/db/audit/flume/source/reader/ReliableOracleAuditEventReader.java:141-154 | a loaded committed value is trimmed and has between 2 and 60 characters |
| Checkpoint.LoadedValueOfShortFile | src/main/java/ch/cern/db/audit/flume/source/reader/ReliableOracleAuditEventReader.java:143-149 | for a file of at most 60 characters, the NUL padding of the buffer makes no difference: the file's own trimmed text is the committed value when it is longer than one character, and there is none otherwise |
| Checkpoint.SaveLoadRoundTrip | src/main/java/ch/cern/db/audit/flume/source/reader/ReliableOracleAuditEventReader.java:141-149 | a value that commit wrote is loaded back unchanged when it is trimmed and has 2 to 60 characters |
| Checkpoint.ShortValueIsIgnored | src/main/java/ch/cern/db/audit/flume/source/reader/ReliableOracleAuditEventReader.java:148-153 | an empty file and a one-character value load as no committed value |
| Checkpoint.BlankFileLoadsNothing | src/main/java/ch/cern/db/audit/flume/source/reader/ReliableOracleAuditEventReader.java:146-153 | a file of only whitespace and control characters loads as no committed value |
| Checkpoint.LongFileIsCut | src/main/java/ch/cern/db/audit/flume/source/reader/ReliableOracleAuditEventReader.java:143-144 | only the first 60 characters of the file matter |
| RowMapping.NormaliseTimestamp | src/main/java/ch/cern/db/audit/flume/source/reader/ReliableOracleAuditEventReader.java:195-196 | the normalised timestamp has 23 characters and no space; each of the first 23 characters of the input is kept, except that a space becomes `T` |
| RowMapping.MapCell | src/main/java/ch/cern/db/audit/flume/source/reader/ReliableOracleAuditEventReader.java:178-201 | no contract of its own; one column's field is specified by MapCellOutcome below |
| RowMapping.MapCellOutcome | src/main/java/ch/cern/db/audit/flume/source/reader/ReliableOracleAuditEventReader.java:178-201 | SMALLINT, TINYINT, INTEGER and BIGINT give an integer field, BOOLEAN a boolean field, and NUMERIC, DOUBLE and FLOAT a double field, each of the column's own cell; a column fails if and only if it is a timestamp column holding NULL or a text under 23 characters, with an error naming the column and telling NULL apart; otherwise timestamp columns give the 23-character normalised timestamp, text columns the getString text or nothing for NULL |
| RowMapping.MapRow | src/main/java/ch/cern/db/audit/flume/source/reader/ReliableOracleAuditEventReader.java:173-203 | no contract of its own; the event built from a row is specified by MapRowFields and MapRowFailure below |
| RowMapping.MapFieldsSuccess | src/main/java/ch/cern/db/audit/flume/source/reader/ReliableOracleAuditEventReader.java:175-203 | the first k columns map without error if and only if each of them does, and then give one field per column, in order |
| RowMapping.MapRowFields | src/main/java/ch/cern/db/audit/flume/source/reader/ReliableOracleAuditEventReader.java:175-203 | a mapped row has one field per column, in column order, named after its column and holding what that column's type code selects |
| RowMapping.MapRowFailure | src/main/java/ch/cern/db/audit/flume/source/reader/ReliableOracleAuditEventReader.java:193-197 | mapping a row fails if and only if some timestamp column is NULL or shorter than 23 characters, and then with the error of the first failing column |
| RowMapping.BuildEvent | src/main/java/ch/cern/db/audit/flume/source/reader/ReliableOracleAuditEventReader.java:173-203 | the column loop builds exactly the mapped row, stopping at the first column that cannot be read |
| Reader.GetColumnMetadata | src/main/java/ch/cern/db/audit/flume/source/reader/ReliableOracleAuditEventReader.java:117-131 | column names and types are copied in order; the commit column's position is the last 1-based position carrying its name, and the lookup fails with the column count and the table name if and only if no column carries it |
| Reader.PullRows | src/main/java/ch/cern/db/audit/flume/source/reader/ReliableOracleAuditEventReader.java:289-305 | a read consumes no more rows than there are and no more than were asked for |
| Reader.PullRowsSuccess | src/main/java/ch/cern/db/audit/flume/source/reader/ReliableOracleAuditEventReader.java:292-304 | a successful read returns min(n, rows) events, each the mapping of its row, in row order; it ran past the last row if and only if it returned fewer than n |
| Reader.PullRowsFailure | src/main/java/ch/cern/db/audit/flume/source/reader/ReliableOracleAuditEventReader.java:292-300 | a read fails if and only if one of the rows it reaches cannot be mapped; it then stops right after the first such row, with that row's error |
| Reader.PullRowsLastValue | src/main/java/ch/cern/db/audit/flume/source/reader/ReliableOracleAuditEventReader.java:205 | the value waiting for commit is the commit column's text of the last row mapped, or the earlier value when no row was mapped |
| Reader.AuditEventReader.constructor | src/main/java/ch/cern/db/audit/flume/source/reader/ReliableOracleAuditEventReader.java:70-103 | a new reader is built on the audit table and commit column with no open result set and no waiting value; its committed value is the loaded one, and a missing checkpoint file is created empty |
| Reader.AuditEventReader.LoadLastCommittedValue | src/main/java/ch/cern/db/audit/flume/source/reader/ReliableOracleAuditEventReader.java:139-164 | a missing file is created empty and the committed value stays as it was; an existing file sets it only when the loaded value exists |
| Reader.AuditEventReader.RunQuery | src/main/java/ch/cern/db/audit/flume/source/reader/ReliableOracleAuditEventReader.java:218-235 | opens the rows of the query built from the current committed value and changes nothing else |
| Reader.AuditEventReader.ReadEvent | src/main/java/ch/cern/db/audit/flume/source/reader/ReliableOracleAuditEventReader.java:166-216 | never changes the committed value or the file; at the end of the rows it drops the result set, so the next call queries again; otherwise it consumes one row and either returns its event and sets the waiting value to the row's commit-column text, or returns the row's error and keeps the waiting value |
| Reader.AuditEventReader.ReadEvents | src/main/java/ch/cern/db/audit/flume/source/reader/ReliableOracleAuditEventReader.java:288-305 | the returned events or error, the waiting value and the remaining rows are those of PullRows on the rows the reader saw |
| Reader.AuditEventReader.Commit | src/main/java/ch/cern/db/audit/flume/source/reader/ReliableOracleAuditEventReader.java:307-319 | with no waiting value nothing changes; otherwise the waiting value becomes the committed value and the whole file text, the next query starts after it, and the waiting value is cleared |
| Reader.Open | src/main/java/ch/cern/db/audit/flume/source/reader/ReliableOracleAuditEventReader.java:70-103 | opening fails, with the column count and the table name, if and only if no column is named EVENT_TIMESTAMP; otherwise the reader is on the audit table and EVENT_TIMESTAMP, holds the columns in order and the last position of EVENT_TIMESTAMP among them, has no result set and no waiting value, and holds the checkpoint file (created empty when missing) and the committed value loaded from it |
| Reader.CommitSurvivesRestart | src/test/java/ch/cern/db/audit/flume/source/reader/ReliableJdbcAuditEventReaderTests.java:86-110 | after a commit of a value that is trimmed and has 2 to 60 characters, a reader built again on the file has that committed value and the same columns, so it resumes where the commit left off; other values are not read back unchanged |
| Reader.CommitTwice | src/main/java/ch/cern/db/audit/flume/source/reader/ReliableOracleAuditEventReader.java:308-318 | two commits in a row leave the state one commit leaves: the second is a no-op |
| BoundedSets.Empty | src/main/java/ch/cern/db/flume/interceptor/DropDuplicatedEventsInterceptor.java:52 | a new set has the given capacity and holds nothing |
| BoundedSets.Add | src/main/java/ch/cern/db/flume/interceptor/DropDuplicatedEventsInterceptor.java:64 | adding keeps the capacity bound and distinctness; a present element changes nothing; the added element is then present (capacity > 0); nothing else is gained; while there is room, a new element is appended as the newest and nothing is lost |
| BoundedSets.AddToFullForgetsOldest | src/main/java/ch/cern/db/flume/interceptor/DropDuplicatedEventsInterceptor.java:64 | adding a new element to a full set forgets exactly the oldest one (the first-in, first-out assumption) |
| BoundedSets.Clear | src/main/java/ch/cern/db/flume/interceptor/DropDuplicatedEventsInterceptor.java:102 | clearing keeps the capacity and forgets every element |
| Interceptor.Fingerprint | src/main/java/ch/cern/db/flume/interceptor/DropDuplicatedEventsInterceptor.java:68-85 | no contract of its own; the fingerprint is specified by FingerprintIsXorOfCheckedHashes and FingerprintIgnoresUncheckedParts below |
| Interceptor.FingerprintIsXorOfCheckedHashes | src/main/java/ch/cern/db/flume/interceptor/DropDuplicatedEventsInterceptor.java:68-85 | each of the four cases is the XOR of the hashes of the checked parts |
| Interceptor.FingerprintIgnoresUncheckedParts | src/main/java/ch/cern/db/flume/interceptor/DropDuplicatedEventsInterceptor.java:68-85 | a part that is not checked never changes the fingerprint; with neither part checked the fingerprint is 0 |
| Interceptor.FilterBatch | src/main/java/ch/cern/db/flume/interceptor/DropDuplicatedEventsInterceptor.java:88-98 | batch interception keeps the set within its capacity and distinct |
| Interceptor.FilterBatchSelects | src/main/java/ch/cern/db/flume/interceptor/DropDuplicatedEventsInterceptor.java:91-95 | the batch returns exactly the events the single-event intercept passed on at their turn, each the original event, in input order |
| Interceptor.FilterBatchRemembers | src/main/java/ch/cern/db/flume/interceptor/DropDuplicatedEventsInterceptor.java:91-95 | while the set has room, afterwards it holds exactly its earlier fingerprints and those of the batch |
| Interceptor.FirstOfEachFingerprintSurvives | src/main/java/ch/cern/db/flume/interceptor/DropDuplicatedEventsInterceptor.java:91-95 | while the set has room, an event is passed on if and only if its fingerprint was not remembered and no earlier event of the batch had it |
| Interceptor.RepeatedEventIsDropped | src/main/java/ch/cern/db/flume/interceptor/DropDuplicatedEventsInterceptor.java:61-65 | in a batch, an event right after the same event is dropped, whatever the set held, when the capacity is above 0 |
| Interceptor.UncheckedEventsCollapse | src/main/java/ch/cern/db/flume/interceptor/DropDuplicatedEventsInterceptor.java:83-84 | with neither part checked and a capacity above 0, a batch passes at most one event: its first event when 0 is not yet remembered, and none once it is |
| Interceptor.ZeroCapacityPassesAll | src/main/java/ch/cern/db/flume/interceptor/DropDuplicatedEventsInterceptor.java:88-98 | with a capacity of 0, a batch passes every event on, in order, and leaves the set empty |
| Interceptor.DropDuplicatedEventsInterceptor.constructor | src/main/java/ch/cern/db/flume/interceptor/DropDuplicatedEventsInterceptor.java:44-48 | headers and body are checked unless configured otherwise, and the capacity defaults to 1000 |
| Interceptor.DropDuplicatedEventsInterceptor.Initialize | src/main/java/ch/cern/db/flume/interceptor/DropDuplicatedEventsInterceptor.java:51-55 | creates an empty set with the configured capacity |
| Interceptor.DropDuplicatedEventsInterceptor.Intercept | src/main/java/ch/cern/db/flume/interceptor/DropDuplicatedEventsInterceptor.java:58-66 | a remembered fingerprint drops the event and leaves the set as it was; otherwise the fingerprint is added and the event itself is returned, and, when the capacity is above 0, it is then remembered |
| Interceptor.DropDuplicatedEventsInterceptor.InterceptBatch | src/main/java/ch/cern/db/flume/interceptor/DropDuplicatedEventsInterceptor.java:88-98 | the kept events and the new set are those of FilterBatch, so the kept events are the ones the single-event intercept passed on, in order |
| Interceptor.DropDuplicatedEventsInterceptor.Close | src/main/java/ch/cern/db/flume/interceptor/DropDuplicatedEventsInterceptor.java:101-103 | empties the set and keeps its capacity |
| Interceptor.InterceptTwice | src/main/java/ch/cern/db/flume/interceptor/DropDuplicatedEventsInterceptor.java:61-65 | when the capacity is above 0, intercepting the same event twice in a row drops it the second time |
| Interceptor.ReacceptAfterClose | src/main/java/ch/cern/db/flume/interceptor/DropDuplicatedEventsInterceptor.java:101-103 | after close, the next event is passed on whatever was seen before |

## Left out

- The database connection is not modelled: the data source, `connect`, statement handling and `close` of the reader. The database is a parameter: a function from query text to rows. An SQLException, and the `isClosed()` test on the result set, are not modelled.
- Characters are Unicode scalar values, not Java's UTF-16 code units. For text outside the Basic Multilingual Plane, the 60-character cut (line 143) and the `length() > 1` test (line 148) count differently in the source. The platform charset used to decode the file is not modelled.
- Checkpoint file I/O is not modelled: the file is a text field. An IOException is not modelled. A single `read` of the 60-character buffer is taken to fill it as far as the file allows.
- The deserializer is not modelled. The event readEvent builds is the event returned; the JSON deserializer and its factory are not part of this model.
- The numeric driver conversions are not modelled. `getInt`, `getBoolean` and `getDouble` fields keep the cell they read; only the choice of getter by type code is modelled. `getString` and `Timestamp.toString()` are the driver's renderings, carried in each cell.
- A NULL timestamp and a timestamp text shorter than 23 characters throw in the source. They are modelled as the errors `NullTimestamp` and `ShortTimestamp`, which end the read like the exception.
- Reader.AuditEventReader.ReadEvent: requires every pending row to have one cell per column. The driver guarantees this for a result set of the table whose metadata was read.
- Reader.AuditEventReader.ReadEvents: requires the same of every pending row, for the same reason.
- The constructor hard-codes the table, the commit column and a null configured query. The configured-query branch of `createQuery` is therefore unreachable from the reader. It is modelled and proved on the standalone `Query.CreateQuery`.
- The template substitution (`[...]`, `{$committed_value}`) belongs to the JDBC reader whose tests are quoted. That reader is not part of this model.
- The literal test vectors for timestamp, numeric and string columns are covered by `CreateQueryLiteral` for all inputs, not restated as concrete strings.
- The `eventsFromDatabase` test needs a live database and is not modelled.
- `SizeLimitedHashSet` is not part of this model. It is modelled as `BoundedSets.BoundedSet`, whose first-in, first-out eviction is an assumption, not a fact taken from its source.
- Java's `Map.hashCode` and `Arrays.hashCode` are not modelled: they are function parameters of the interceptor.
- Interceptor.DropDuplicatedEventsInterceptor.constructor: the capacity is a `nat`, so a negative configured size is not modelled.
- Interceptor.DropDuplicatedEventsInterceptor.Intercept: requires `initialize` to have run. Before it, the source would throw a NullPointerException at line 61.
- Interceptor.DropDuplicatedEventsInterceptor.InterceptBatch: requires `initialize` to have run, for the same reason: each event goes through the single-event intercept.
- Interceptor.DropDuplicatedEventsInterceptor.Close: requires `initialize` to have run. Before it, the source would throw a NullPointerException at line 102.
- Reference identity is not modelled: an event passed on is the same value as the event received.
- `AuditSource`, the builders, logging and Flume `Context` parsing are not part of this model.

=== FILE: bounded_set.dfy ===
/**
 * The size-limited hash set the interceptor keeps its recent fingerprints
 * in. Its implementation is not part of this model; it is taken to be a set
 * of at most `capacity` elements that, when full, forgets the element added
 * longest ago (first in, first out).
 */
module BoundedSets {

  /** The elements in the order they were added, oldest first. */
  datatype BoundedSet = BoundedSet(capacity: nat, order: seq<bv32>)

  predicate Distinct(xs: seq<bv32>) {
    forall i, j :: 0 <= i < j < |xs| ==> xs[i] != xs[j]
  }

  predicate WellFormed(s: BoundedSet) {
    |s.order| <= s.capacity && Distinct(s.order)
  }

  predicate Contains(s: BoundedSet, x: bv32) {
    x in s.order
  }

  /** A new set of the given capacity, holding nothing. */
  function Empty(capacity: nat): (s: BoundedSet)
    ensures WellFormed(s) && s.capacity == capacity
    ensures forall x :: !Contains(s, x)
  {
    BoundedSet(capacity, [])
  }

  /** The last `n` elements of `xs` (all of them when there are fewer). */
  function Newest(xs: seq<bv32>, n: nat): (r: seq<bv32>)
    ensures |r| <= n && |r| <= |xs| && r == xs[|xs| - |r|..]
    ensures |xs| <= n ==> r == xs
    ensures n > 0 && |xs| > 0 ==> |r| > 0 && r[|r| - 1] == xs[|xs| - 1]
  {
    if |xs| <= n then xs else xs[|xs| - n..]
  }

  /** What survives of a distinct sequence is distinct and was in it. */
  lemma NewestOfDistinct(xs: seq<bv32>, n: nat)
    requires Distinct(xs)
    ensures Distinct(Newest(xs, n))
    ensures forall y :: y in Newest(xs, n) ==> y in xs
  {
    var r := Newest(xs, n);
    var d := |xs| - |r|;
    forall i, j | 0 <= i < j < |r| ensures r[i] != r[j] {
      assert r[i] == xs[d + i] && r[j] == xs[d + j];
    }
    forall y | y in r ensures y in xs {
      var k :| 0 <= k < |r| && r[k] == y;
      assert xs[d + k] == y;
    }
  }

  /**
   * Adds `x`. An element already present leaves the set as it is; a new one
   * becomes the newest, and when that takes the set over its capacity the
   * oldest element is forgotten.
   */
  function Add(s: BoundedSet, x: bv32): (r: BoundedSet)
    requires WellFormed(s)
    ensures WellFormed(r) && r.capacity == s.capacity
    ensures Contains(s, x) ==> r == s
    ensures s.capacity > 0 ==> Contains(r, x)
    ensures forall y :: Contains(r, y) ==> y == x || Contains(s, y)
    ensures |s.order| < s.capacity ==> forall y :: Contains(s, y) ==> Contains(r, y)
    ensures !Contains(s, x) && |s.order| < s.capacity ==> r.order == s.order + [x]
    ensures |r.order| <= |s.order| + 1
  {
    if x in s.order then s
    else
      var grown := s.order + [x];
      AppendFresh(s.order, x);
      NewestOfDistinct(grown, s.capacity);
      BoundedSet(s.capacity, Newest(grown, s.capacity))
  }

  /** Appending an element not yet present keeps a sequence distinct and loses nothing. */
  lemma AppendFresh(xs: seq<bv32>, x: bv32)
    requires Distinct(xs) && x !in xs
    ensures Distinct(xs + [x])
    ensures forall y :: y in xs + [x] <==> y == x || y in xs
  {
    var grown := xs + [x];
    forall i, j | 0 <= i < j < |grown| ensures grown[i] != grown[j] {
      assert grown[i] == xs[i];
    }
  }

  /** When the set is full, adding a new element forgets exactly the oldest one. */
  lemma AddToFullForgetsOldest(s: BoundedSet, x: bv32)
    requires WellFormed(s) && |s.order| == s.capacity > 0 && !Contains(s, x)
    ensures Add(s, x).order == s.order[1..] + [x]
    ensures !Contains(Add(s, x), s.order[0])
  {
    var grown := s.order + [x];
    assert grown[|grown| - s.capacity..] == s.order[1..] + [x];
    assert s.order[0] !in s.order[1..] by {
      forall k | 0 <= k < |s.order[1..]| ensures s.order[1..][k] != s.order[0] {
        assert s.order[1..][k] == s.order[k + 1];
      }
    }
  }

  /** Clearing keeps the capacity and forgets every element. */
  function Clear(s: BoundedSet): (r: BoundedSet)
    ensures WellFormed(r) && r.capacity == s.capacity
    ensures forall x :: !Contains(r, x)
  {
    Empty(s.capacity)
  }
}

=== FILE: checkpoint.dfy ===
/**
 * The checkpoint file: commit overwrites it with the committed value, and
 * loadLastCommittedValue reads it back through a 60-character buffer, trims
 * it as java.lang.String.trim does and keeps it only if more than one
 * character remains.
 */
module Checkpoint {
  import opened Wrappers

  /** Size of the character buffer the file is read into. */
  const ReadBufferLength: nat := 60

  /** String.trim removes every character at or below U+0020 from both ends. */
  predicate IsTrimmable(c: char) {
    c <= ' '
  }

  predicate IsTrimmed(s: string) {
    |s| == 0 || (!IsTrimmable(s[0]) && !IsTrimmable(s[|s| - 1]))
  }

  function TrimStart(s: string): (r: string)
    ensures |r| <= |s| && r == s[|s| - |r|..]
    ensures |r| > 0 ==> !IsTrimmable(r[0])
    ensures forall i :: 0 <= i < |s| - |r| ==> IsTrimmable(s[i])
  {
    if |s| > 0 && IsTrimmable(s[0]) then TrimStart(s[1..]) else s
  }

  function TrimEnd(s: string): (r: string)
    ensures |r| <= |s| && r == s[..|r|]
    ensures |r| > 0 ==> !IsTrimmable(r[|r| - 1])
    ensures forall i :: |r| <= i < |s| ==> IsTrimmable(s[i])
  {
    if |s| > 0 && IsTrimmable(s[|s| - 1]) then TrimEnd(s[..|s| - 1]) else s
  }

  /**
   * `r` sits in `s` at offset `a`, and everything of `s` before and after it
   * is trimmable.
   */
  predicate SliceAt(s: string, r: string, a: nat) {
    a + |r| <= |s| && r == s[a..a + |r|] &&
    (forall i :: 0 <= i < a ==> IsTrimmable(s[i])) &&
    (forall i :: a + |r| <= i < |s| ==> IsTrimmable(s[i]))
  }

  /** Cutting a trimmable suffix and then a trimmable prefix leaves a slice of the original. */
  lemma CutBothEnds(s: string, t: string, r: string)
    requires |t| <= |s| && t == s[..|t|]
    requires forall i :: |t| <= i < |s| ==> IsTrimmable(s[i])
    requires |r| <= |t| && r == t[|t| - |r|..]
    requires forall i :: 0 <= i < |t| - |r| ==> IsTrimmable(t[i])
    ensures SliceAt(s, r, |t| - |r|)
  {
    var a := |t| - |r|;
    assert r == s[a..a + |r|];
    forall i | 0 <= i < a ensures IsTrimmable(s[i]) {
      assert s[i] == t[i];
    }
  }

  /** String.trim: the longest slice of `s` with no trimmable character at either end. */
  function Trim(s: string): (r: string)
    ensures IsTrimmed(r) && |r| <= |s|
    ensures exists a :: SliceAt(s, r, a)
    ensures IsTrimmed(s) ==> r == s
    ensures (forall i :: 0 <= i < |s| ==> IsTrimmable(s[i])) ==> r == []
  {
    var t := TrimEnd(s);
    CutBothEnds(s, t, TrimStart(t));
    TrimStart(t)
  }

  function Nuls(n: nat): (r: string)
    ensures |r| == n && forall i :: 0 <= i < n ==> r[i] == '\0'
  {
    seq(n, _ => '\0')
  }

  /**
   * The string built from the read buffer: the first (at most) 60 characters
   * of the file, followed by the NUL characters the buffer was created with.
   */
  function ReadBuffer(text: string): (buffer: string)
    ensures |buffer| == ReadBufferLength
    ensures forall i :: 0 <= i < |text| && i < ReadBufferLength ==> buffer[i] == text[i]
    ensures forall i :: |text| <= i < ReadBufferLength ==> buffer[i] == '\0'
  {
    var n := if |text| < ReadBufferLength then |text| else ReadBufferLength;
    text[..n] + Nuls(ReadBufferLength - n)
  }

  /** The committed value loadLastCommittedValue takes from an existing file, if any. */
  function LoadedValue(text: string): (r: Option<string>)
    ensures r.Some? ==> 1 < |r.value| <= ReadBufferLength && IsTrimmed(r.value)
  {
    var value := Trim(ReadBuffer(text));
    if |value| > 1 then Some(value) else None
  }

  lemma {:induction false} TrimEndIgnoresPadding(s: string, n: nat)
    ensures TrimEnd(s + Nuls(n)) == TrimEnd(s)
  {
    if n > 0 {
      var t := s + Nuls(n);
      assert IsTrimmable(t[|t| - 1]);
      assert t[..|t| - 1] == s + Nuls(n - 1);
      TrimEndIgnoresPadding(s, n - 1);
    } else {
      assert s + Nuls(0) == s;
    }
  }

  /** For a file of at most 60 characters, the buffer's padding is invisible: the file's own trimmed text decides. */
  lemma LoadedValueOfShortFile(text: string)
    requires |text| <= ReadBufferLength
    ensures LoadedValue(text) == if |Trim(text)| > 1 then Some(Trim(text)) else None
  {
    var padding := ReadBufferLength - |text|;
    assert text[..|text|] == text;
    assert ReadBuffer(text) == text + Nuls(padding);
    TrimEndIgnoresPadding(text, padding);
    assert Trim(ReadBuffer(text)) == TrimStart(TrimEnd(text));
  }

  /**
   * Round trip: a value written by commit is read back by a fresh load when
   * it is already trimmed and has between 2 and 60 characters.
   */
  lemma SaveLoadRoundTrip(value: string)
    requires IsTrimmed(value) && 2 <= |value| <= ReadBufferLength
    ensures LoadedValue(value) == Some(value)
  {
    LoadedValueOfShortFile(value);
  }

  /** An empty file, or a one-character value, loads as no committed value. */
  lemma ShortValueIsIgnored(value: string)
    requires |value| <= 1
    ensures LoadedValue(value) == None
  {
    LoadedValueOfShortFile(value);
  }

  /** A file holding only whitespace and control characters loads as no committed value. */
  lemma BlankFileLoadsNothing(text: string)
    requires forall i :: 0 <= i < |text| ==> IsTrimmable(text[i])
    ensures LoadedValue(text) == None
  {
    var buffer := ReadBuffer(text);
    assert forall i :: 0 <= i < |buffer| ==> IsTrimmable(buffer[i]);
  }

  /** Only the first 60 characters of the file are ever read. */
  lemma LongFileIsCut(text: string)
    requires |text| > ReadBufferLength
    ensures LoadedValue(text) == LoadedValue(text[..ReadBufferLength])
  {
    assert text[..ReadBufferLength][..ReadBufferLength] == text[..ReadBufferLength];
  }
}

=== FILE: interceptor.dfy ===
/**
 * The interceptor that drops duplicated events: it fingerprints each event
 * from its headers, its body or both, remembers the fingerprints of recent
 * events in a size-limited set, and drops an event whose fingerprint is
 * still remembered.
 *
 * Java's Map.hashCode and Arrays.hashCode are not modelled: they are the
 * function parameters `headersHash` and `bodyHash`, producing 32-bit values.
 */
module Interceptor {
  import opened Wrappers
  import opened BoundedSets

  datatype Event = Event(headers: map<string, string>, body: seq<bv8>)

  type HeadersHash = map<string, string> -> bv32
  type BodyHash = seq<bv8> -> bv32

  /** The settings read from the configuration; `None` when a key is absent. */
  datatype Config = Config(headers: Option<bool>, body: Option<bool>, size: Option<nat>)

  /** Capacity of the fingerprint set when none is configured. */
  const DefaultSize: nat := 1000

  /** Which parts of an event take part in its fingerprint, and how each is hashed. */
  datatype HashRule = HashRule(checkHeaders: bool, checkBody: bool, headersHash: HeadersHash, bodyHash: BodyHash)

  /**
   * The fingerprint: the XOR of both hashes when both parts are checked, the
   * one hash when one part is, and 0 when neither is.
   */
  function Fingerprint(rule: HashRule, e: Event): bv32 {
    var headersHash: bv32 := if rule.checkHeaders then rule.headersHash(e.headers) else 0;
    var bodyHash: bv32 := if rule.checkBody then rule.bodyHash(e.body) else 0;
    if rule.checkHeaders && rule.checkBody then headersHash ^ bodyHash
    else if rule.checkHeaders && !rule.checkBody then headersHash
    else if !rule.checkHeaders && rule.checkBody then bodyHash
    else 0
  }

  /** Every case of the fingerprint is the XOR of the checked parts' hashes. */
  lemma FingerprintIsXorOfCheckedHashes(rule: HashRule, e: Event)
    ensures Fingerprint(rule, e) ==
      (if rule.checkHeaders then rule.headersHash(e.headers) else 0) ^
      (if rule.checkBody then rule.bodyHash(e.body) else 0)
  {
    var h: bv32 := if rule.checkHeaders then rule.headersHash(e.headers) else 0;
    var b: bv32 := if rule.checkBody then rule.bodyHash(e.body) else 0;
    if !rule.checkHeaders {
      assert h == 0;
      assert 0 ^ b == b;
    } else if !rule.checkBody {
      assert b == 0;
      assert h ^ 0 == h;
    }
  }

  /**
   * A part that is not checked never influences the fingerprint; with
   * neither part checked, every event has the fingerprint 0.
   */
  lemma FingerprintIgnoresUncheckedParts(rule: HashRule, e1: Event, e2: Event)
    ensures !rule.checkBody && e1.headers == e2.headers ==> Fingerprint(rule, e1) == Fingerprint(rule, e2)
    ensures !rule.checkHeaders && e1.body == e2.body ==> Fingerprint(rule, e1) == Fingerprint(rule, e2)
    ensures !rule.checkHeaders && !rule.checkBody ==> Fingerprint(rule, e1) == 0
  {
  }

  /**
   * What intercepting a batch does: each event in turn is kept when its
   * fingerprint is not in the set, and its fingerprint is then added. The
   * kept events, in order, and the resulting set.
   */
  function FilterBatch(rule: HashRule, s: BoundedSet, events: seq<Event>): (r: (seq<Event>, BoundedSet))
    requires WellFormed(s)
    ensures WellFormed(r.1) && r.1.capacity == s.capacity
    decreases |events|
  {
    if events == [] then ([], s)
    else
      var prev := FilterBatch(rule, s, events[..|events| - 1]);
      var e := events[|events| - 1];
      var fp := Fingerprint(rule, e);
      if Contains(prev.1, fp) then prev else (prev.0 + [e], Add(prev.1, fp))
  }

  /** The answer of the single-event intercept at the turn of event `i`: true when it passed the event on. */
  function DecisionAt(rule: HashRule, s: BoundedSet, events: seq<Event>, i: nat): bool
    requires WellFormed(s) && i < |events|
  {
    !Contains(FilterBatch(rule, s, events[..i]).1, Fingerprint(rule, events[i]))
  }

  /** The answers of the single-event intercept, event by event. */
  function Decisions(rule: HashRule, s: BoundedSet, events: seq<Event>): (d: seq<bool>)
    requires WellFormed(s)
    ensures |d| == |events|
  {
    seq(|events|, i requires 0 <= i < |events| => DecisionAt(rule, s, events, i))
  }

  /** The elements of `xs` whose flag is set, in their original order. */
  function Select<T>(xs: seq<T>, keep: seq<bool>): (r: seq<T>)
    requires |keep| == |xs|
    ensures |r| <= |xs|
    ensures forall y :: y in r ==> y in xs
    decreases |xs|
  {
    if xs == [] then []
    else
      var n := |xs| - 1;
      var init := Select(xs[..n], keep[..n]);
      assert forall y :: y in init ==> y in xs by {
        forall y | y in init ensures y in xs {
          assert y in xs[..n];
        }
      }
      init + (if keep[n] then [xs[n]] else [])
  }

  /** The decisions on a batch extend those on its prefix by the decision on its last event. */
  lemma DecisionsSnoc(rule: HashRule, s: BoundedSet, events: seq<Event>)
    requires WellFormed(s) && events != []
    ensures Decisions(rule, s, events)[..|events| - 1] == Decisions(rule, s, events[..|events| - 1])
    ensures Decisions(rule, s, events)[|events| - 1] ==
      !Contains(FilterBatch(rule, s, events[..|events| - 1]).1, Fingerprint(rule, events[|events| - 1]))
  {
    var n := |events| - 1;
    var init := events[..n];
    forall i | 0 <= i < n ensures DecisionAt(rule, s, events, i) == DecisionAt(rule, s, init, i) {
      assert events[..i] == init[..i] && events[i] == init[i];
    }
  }

  /**
   * The batch keeps exactly the events the single-event intercept passed on
   * at their turn, each the original event, in their original order.
   */
  lemma {:induction false} FilterBatchSelects(rule: HashRule, s: BoundedSet, events: seq<Event>)
    requires WellFormed(s)
    ensures FilterBatch(rule, s, events).0 == Select(events, Decisions(rule, s, events))
    decreases |events|
  {
    if events != [] {
      var n := |events| - 1;
      FilterBatchSelects(rule, s, events[..n]);
      DecisionsSnoc(rule, s, events);
    }
  }

  /** The fingerprints of a batch. */
  function Seen(rule: HashRule, events: seq<Event>): set<bv32> {
    set j | 0 <= j < |events| :: Fingerprint(rule, events[j])
  }

  lemma SeenAppend(rule: HashRule, events: seq<Event>)
    requires events != []
    ensures Seen(rule, events) == Seen(rule, events[..|events| - 1]) + {Fingerprint(rule, events[|events| - 1])}
  {
    var n := |events| - 1;
    var init := events[..n];
    forall y | y in Seen(rule, events) ensures y in Seen(rule, init) + {Fingerprint(rule, events[n])} {
      var j :| 0 <= j < |events| && Fingerprint(rule, events[j]) == y;
      if j < n {
        assert init[j] == events[j];
      }
    }
    forall y | y in Seen(rule, init) ensures y in Seen(rule, events) {
      var j :| 0 <= j < n && Fingerprint(rule, init[j]) == y;
      assert events[j] == init[j];
    }
  }

  /**
   * While the set has room for every fingerprint of the batch, nothing is
   * forgotten: the set afterwards holds exactly the fingerprints it held
   * before and those of the batch.
   */
  lemma {:induction false} FilterBatchRemembers(rule: HashRule, s: BoundedSet, events: seq<Event>)
    requires WellFormed(s) && |s.order| + |events| <= s.capacity
    ensures |FilterBatch(rule, s, events).1.order| <= |s.order| + |events|
    ensures forall y :: Contains(FilterBatch(rule, s, events).1, y) <==> Contains(s, y) || y in Seen(rule, events)
    decreases |events|
  {
    if events != [] {
      var n := |events| - 1;
      FilterBatchRemembers(rule, s, events[..n]);
      SeenAppend(rule, events);
    }
  }

  /**
   * While nothing is forgotten, an event of the batch is passed on exactly
   * when its fingerprint was not in the set and no earlier event of the
   * batch had the same fingerprint: of the events sharing a fingerprint,
   * only the first survives.
   */
  lemma FirstOfEachFingerprintSurvives(rule: HashRule, s: BoundedSet, events: seq<Event>)
    requires WellFormed(s) && |s.order| + |events| <= s.capacity
    ensures forall i :: 0 <= i < |events| ==>
      (Decisions(rule, s, events)[i] <==>
         !Contains(s, Fingerprint(rule, events[i])) &&
         forall j :: 0 <= j < i ==> Fingerprint(rule, events[j]) != Fingerprint(rule, events[i]))
  {
    forall i | 0 <= i < |events|
      ensures Decisions(rule, s, events)[i] <==>
         !Contains(s, Fingerprint(rule, events[i])) &&
         forall j :: 0 <= j < i ==> Fingerprint(rule, events[j]) != Fingerprint(rule, events[i])
    {
      var init := events[..i];
      FilterBatchRemembers(rule, s, init);
      assert forall j :: 0 <= j < i ==> init[j] == events[j];
    }
  }

  /** An event that immediately follows itself is dropped the second time, whatever the set held. */
  lemma RepeatedEventIsDropped(rule: HashRule, s: BoundedSet, e: Event)
    requires WellFormed(s) && s.capacity > 0
    ensures !Decisions(rule, s, [e, e])[1]
    ensures FilterBatch(rule, s, [e, e]).0 == FilterBatch(rule, s, [e]).0
  {
    assert [e, e][..1] == [e];
    assert [e, e][..0] == [];
  }

  /**
   * With neither part checked every fingerprint is 0, so a batch passes on
   * at most one event (when the set can hold anything at all): its first
   * one while 0 is not remembered, and none once it is.
   */
  lemma {:induction false} UncheckedEventsCollapse(rule: HashRule, s: BoundedSet, events: seq<Event>)
    requires WellFormed(s) && !rule.checkHeaders && !rule.checkBody
    ensures s.capacity > 0 ==> |FilterBatch(rule, s, events).0| <= 1
    ensures Contains(s, 0) ==> FilterBatch(rule, s, events).0 == []
    ensures s.capacity > 0 && events != [] ==> Contains(FilterBatch(rule, s, events).1, 0)
    ensures FilterBatch(rule, s, events).0 != [] ==> !Contains(s, 0)
    ensures s.capacity > 0 && !Contains(s, 0) && events != [] ==> FilterBatch(rule, s, events).0 == [events[0]]
    decreases |events|
  {
    if events != [] {
      var n := |events| - 1;
      UncheckedEventsCollapse(rule, s, events[..n]);
      var prev := FilterBatch(rule, s, events[..n]);
      assert Fingerprint(rule, events[n]) == 0;
      if n > 0 && s.capacity > 0 {
        assert events[..n] != [];
        assert Contains(prev.1, 0);
        assert events[..n][0] == events[0];
      } else if n == 0 {
        assert events[..n] == [];
      }
    }
  }

  /**
   * With a capacity of 0 the set never remembers anything, so every event of
   * a batch is passed on.
   */
  lemma {:induction false} ZeroCapacityPassesAll(rule: HashRule, s: BoundedSet, events: seq<Event>)
    requires WellFormed(s) && s.capacity == 0
    ensures FilterBatch(rule, s, events) == (events, s)
    decreases |events|
  {
    if events != [] {
      var n := |events| - 1;
      ZeroCapacityPassesAll(rule, s, events[..n]);
      assert events[..n] + [events[n]] == events;
    }
  }

  /**
   * The interceptor. Its settings are fixed when it is built; the set of
   * recent fingerprints exists from initialize on (`None` before).
   */
  class DropDuplicatedEventsInterceptor {
    const checkHeaders: bool
    const checkBody: bool
    const size: nat
    const headersHash: HeadersHash
    const bodyHash: BodyHash
    var lastHashes: Option<BoundedSet>

    predicate Valid()
      reads this
    {
      lastHashes.Some? ==> WellFormed(lastHashes.value) && lastHashes.value.capacity == size
    }

    function Rule(): HashRule {
      HashRule(checkHeaders, checkBody, headersHash, bodyHash)
    }

    /** Headers and body are checked unless configured otherwise; the capacity defaults to 1000. */
    constructor (config: Config, headersHash: HeadersHash, bodyHash: BodyHash)
      ensures Valid() && lastHashes == None
      ensures checkHeaders == config.headers.GetOr(true) && checkBody == config.body.GetOr(true)
      ensures size == config.size.GetOr(DefaultSize)
      ensures this.headersHash == headersHash && this.bodyHash == bodyHash
    {
      checkHeaders := config.headers.GetOr(true);
      checkBody := config.body.GetOr(true);
      size := config.size.GetOr(DefaultSize);
      this.headersHash := headersHash;
      this.bodyHash := bodyHash;
      lastHashes := None;
    }

    /** Creates the empty fingerprint set with the configured capacity. */
    method Initialize()
      modifies this
      ensures Valid() && lastHashes == Some(Empty(size))
    {
      lastHashes := Some(Empty(size));
    }

    /**
     * Drops the event when its fingerprint is remembered, leaving the set as
     * it is; otherwise remembers the fingerprint and passes the event on.
     */
    method Intercept(e: Event) returns (r: Option<Event>)
      requires Valid() && lastHashes.Some?
      modifies this
      ensures Valid() && lastHashes.Some?
      ensures Contains(old(lastHashes.value), Fingerprint(Rule(), e)) ==>
        r == None && lastHashes == old(lastHashes)
      ensures !Contains(old(lastHashes.value), Fingerprint(Rule(), e)) ==>
        r == Some(e) && lastHashes == Some(Add(old(lastHashes.value), Fingerprint(Rule(), e)))
      ensures r.Some? && size > 0 ==> Contains(lastHashes.value, Fingerprint(Rule(), e))
    {
      var hash := Fingerprint(Rule(), e);
      if Contains(lastHashes.value, hash) {
        return None;
      }
      lastHashes := Some(Add(lastHashes.value, hash));
      return Some(e);
    }

    /**
     * Intercepts each event of the batch in turn and returns those passed
     * on, in their original order.
     */
    method InterceptBatch(events: seq<Event>) returns (kept: seq<Event>)
      requires Valid() && lastHashes.Some?
      modifies this
      ensures Valid() && lastHashes.Some?
      ensures (kept, lastHashes.value) == FilterBatch(Rule(), old(lastHashes.value), events)
      ensures kept == Select(events, Decisions(Rule(), old(lastHashes.value), events))
    {
      kept := [];
      for i := 0 to |events|
        invariant Valid() && lastHashes.Some?
        invariant (kept, lastHashes.value) == FilterBatch(Rule(), old(lastHashes.value), events[..i])
      {
        assert events[..i + 1][..i] == events[..i];
        var passed := Intercept(events[i]);
        if passed.Some? {
          kept := kept + [events[i]];
        }
      }
      assert events[..|events|] == events;
      FilterBatchSelects(Rule(), old(lastHashes.value), events);
    }

    /** Forgets every remembered fingerprint. */
    method Close()
      requires Valid() && lastHashes.Some?
      modifies this
      ensures Valid() && lastHashes == Some(Clear(old(lastHashes.value)))
      ensures forall x :: !Contains(lastHashes.value, x)
    {
      lastHashes := Some(Clear(lastHashes.value));
    }
  }

  /** An event passed on is remembered, so the same event intercepted right after it is dropped. */
  method InterceptTwice(interceptor: DropDuplicatedEventsInterceptor, e: Event) returns (first: Option<Event>, second: Option<Event>)
    requires interceptor.Valid() && interceptor.lastHashes.Some? && interceptor.size > 0
    modifies interceptor
    ensures first == (if Contains(old(interceptor.lastHashes.value), Fingerprint(interceptor.Rule(), e)) then None else Some(e))
    ensures second == None
  {
    first := interceptor.Intercept(e);
    second := interceptor.Intercept(e);
  }

  /** After close, every event is new again: the first one intercepted is passed on. */
  method ReacceptAfterClose(interceptor: DropDuplicatedEventsInterceptor, e: Event) returns (r: Option<Event>)
    requires interceptor.Valid() && interceptor.lastHashes.Some?
    modifies interceptor
    ensures r == Some(e)
  {
    interceptor.Close();
    r := interceptor.Intercept(e);
  }
}

=== FILE: query.dfy ===
/**
 * The text of the next poll (createQuery): the whole table in commit-column
 * order, restricted to rows past the committed value when there is one.
 */
module Query {
  import opened Wrappers
  import opened SqlTypes

  predicate StartsWith(s: string, prefix: string) {
    |prefix| <= |s| && s[..|prefix|] == prefix
  }

  predicate EndsWith(s: string, suffix: string) {
    |suffix| <= |s| && s[|s| - |suffix|..] == suffix
  }

  /** The committed value as it is written after `>` for a column of type `code`. */
  function Literal(code: int, value: string): string {
    match LiteralStyleOf(code)
    case Unquoted => value
    case TimestampLiteral => "TIMESTAMP '" + value + "'"
    case Quoted => "'" + value + "'"
  }

  /**
   * The query the reader runs. A configured query is used as it is; otherwise
   * the table is selected whole, past the committed value when there is one,
   * and always ordered by the commit column.
   */
  function CreateQuery(configured: Option<string>, table: string, column: string, code: int,
                       committed: Option<string>): string
  {
    if configured.Some? then configured.value
    else
      var select := "SELECT * FROM " + table;
      var filtered := if committed.Some? then select + (" WHERE " + column + " > ") + Literal(code, committed.value)
                      else select;
      filtered + (" ORDER BY " + column)
  }

  /**
   * A configured query is returned unchanged; a built one selects the whole
   * table, ends with the ordering by the commit column, and has nothing in
   * between exactly when there is no committed value.
   */
  lemma CreateQueryShape(configured: Option<string>, table: string, column: string, code: int, committed: Option<string>)
    ensures var q := CreateQuery(configured, table, column, code, committed);
      (configured.Some? ==> q == configured.value) &&
      (configured.None? ==> StartsWith(q, "SELECT * FROM " + table)) &&
      (configured.None? ==> EndsWith(q, " ORDER BY " + column)) &&
      (configured.None? ==> (committed.None? <==> q == "SELECT * FROM " + table + " ORDER BY " + column))
  {
    var q := CreateQuery(configured, table, column, code, committed);
    if configured.None? {
      var select := "SELECT * FROM " + table;
      var order := " ORDER BY " + column;
      if committed.Some? {
        var middle := (" WHERE " + column + " > ") + Literal(code, committed.value);
        assert q == select + middle + order;
        assert q[..|select|] == select;
        assert q[|q| - |order|..] == order;
        assert |q| > |select + order|;
      } else {
        assert q == select + order;
        assert q[..|select|] == select;
        assert q[|q| - |order|..] == order;
      }
    }
  }

  /** Everything before the committed value in a query with a WHERE clause. */
  function WherePrefix(table: string, column: string): string {
    "SELECT * FROM " + table + " WHERE " + column + " > "
  }

  /** Everything after the committed value (or after the table, without one). */
  function OrderSuffix(column: string): string {
    " ORDER BY " + column
  }

  /** The value inside a literal written by Literal. */
  function Unliteral(code: int, literal: string): string {
    match LiteralStyleOf(code)
    case Unquoted => literal
    case TimestampLiteral => if |literal| >= 12 then literal[11..|literal| - 1] else literal
    case Quoted => if |literal| >= 2 then literal[1..|literal| - 1] else literal
  }

  /** The committed value a generated query compares against, read back from its text. */
  function CommittedValueOf(q: string, table: string, column: string, code: int): Option<string> {
    var head := WherePrefix(table, column);
    var tail := OrderSuffix(column);
    if |head| + |tail| <= |q| && q[..|head|] == head && q[|q| - |tail|..] == tail
    then Some(Unliteral(code, q[|head|..|q| - |tail|]))
    else None
  }

  lemma UnliteralLiteral(code: int, value: string)
    ensures Unliteral(code, Literal(code, value)) == value
  {
    match LiteralStyleOf(code)
    case Unquoted =>
    case TimestampLiteral =>
      var lit := "TIMESTAMP '" + value + "'";
      assert lit[11..|lit| - 1] == value;
    case Quoted =>
      var lit := "'" + value + "'";
      assert lit[1..|lit| - 1] == value;
  }

  /**
   * A generated query determines the committed value it was built from: the
   * poll resumes exactly after the checkpoint, and a query without a WHERE
   * clause is told apart from every query with one.
   */
  lemma CommittedValueRoundTrip(table: string, column: string, code: int, committed: Option<string>)
    ensures CommittedValueOf(CreateQuery(None, table, column, code, committed), table, column, code) == committed
  {
    var q := CreateQuery(None, table, column, code, committed);
    var head := WherePrefix(table, column);
    var tail := OrderSuffix(column);
    match committed
    case None =>
      assert |q| < |head| + |tail|;
    case Some(v) =>
      var lit := Literal(code, v);
      assert q == head + lit + tail;
      assert q[..|head|] == head;
      assert q[|q| - |tail|..] == tail;
      assert q[|head|..|q| - |tail|] == lit;
      UnliteralLiteral(code, v);
  }

  /**
   * The three literal formats, spelled out per type code: numeric and boolean
   * codes unquoted, the two timestamp codes as TIMESTAMP '...', all others
   * single-quoted.
   */
  lemma CreateQueryLiteral(table: string, column: string, code: int, v: string)
    ensures code in UnquotedCodes ==>
      CreateQuery(None, table, column, code, Some(v)) ==
      "SELECT * FROM " + table + " WHERE " + column + " > " + v + " ORDER BY " + column
    ensures code in TimestampCodes ==>
      CreateQuery(None, table, column, code, Some(v)) ==
      "SELECT * FROM " + table + " WHERE " + column + " > " + "TIMESTAMP '" + v + "'" + " ORDER BY " + column
    ensures code !in UnquotedCodes && code !in TimestampCodes ==>
      CreateQuery(None, table, column, code, Some(v)) ==
      "SELECT * FROM " + table + " WHERE " + column + " > " + "'" + v + "'" + " ORDER BY " + column
  {
    var head := "SELECT * FROM " + table + " WHERE " + column + " > ";
    var tail := " ORDER BY " + column;
    var lit := Literal(code, v);
    assert CreateQuery(None, table, column, code, Some(v)) == head + lit + tail;
    if code in TimestampCodes && code !in UnquotedCodes {
      assert lit == "TIMESTAMP '" + v + "'";
      assert head + lit + tail == head + "TIMESTAMP '" + v + "'" + tail;
    } else if code !in UnquotedCodes {
      assert lit == "'" + v + "'";
      assert head + lit + tail == head + "'" + v + "'" + tail;
    }
  }

  /**
   * Expected query texts of the reader's unit tests for the two cases without
   * a literal; the cases with a literal are instances of CreateQueryLiteral.
   */
  lemma CreateQueryExamples()
    ensures CreateQuery(Some("new query"), "table", "column", Varchar, Some("value")) == "new query"
    ensures CreateQuery(None, "table_name1", "column_name1", Varchar, None)
         == "SELECT * FROM table_name1 ORDER BY column_name1"
  {
    assert "SELECT * FROM " + "table_name1" == "SELECT * FROM table_name1";
    assert "SELECT * FROM table_name1" + " ORDER BY column_name1" == "SELECT * FROM table_name1 ORDER BY column_name1";
  }
}

=== FILE: reader.dfy ===
/**
 * The reliable reader of Oracle's unified audit trail: it learns the
 * table's columns once, queries the rows past the last committed value,
 * turns each row into an audit event, and keeps the committed value in a
 * small checkpoint file so that a restart resumes where the last commit
 * left off.
 *
 * The database is a parameter: a function from the text of a query to the
 * rows it returns, in order. The checkpoint file is a field holding its
 * text, `None` while the file does not exist.
 */
module Reader {
  import opened Wrappers
  import opened SqlTypes
  import opened Query
  import opened Checkpoint
  import opened RowMapping

  /** The table and the column the reader is built for. */
  const AuditTable := "UNIFIED_AUDIT_TRAIL"
  const AuditCommitColumn := "EVENT_TIMESTAMP"

  /** One column of the table's metadata: its name and its SQL type code. */
  datatype Column = Column(name: string, typeCode: int)

  /** Opening fails when no column carries the name of the column to commit. */
  datatype OpenError = MissingCommitColumn(columnCount: nat, table: string)

  /** The rows each query returns, in order. */
  type Database = string -> seq<Row>

  /** `k` is the 1-based position of the last column named `column`. */
  predicate IsLastMatch(names: seq<string>, column: string, k: nat) {
    1 <= k <= |names| && names[k - 1] == column &&
    forall j :: k <= j < |names| ==> names[j] != column
  }

  /**
   * Copies the names and type codes of the table's columns, in order, and
   * finds the position of the column to commit; when several columns carry
   * that name, the last one wins.
   */
  method GetColumnMetadata(table: string, columnToCommit: string, metadata: seq<Column>)
    returns (names: seq<string>, types: seq<int>, commitColumn: Result<nat, OpenError>)
    ensures |names| == |types| == |metadata|
    ensures forall i :: 0 <= i < |metadata| ==> names[i] == metadata[i].name && types[i] == metadata[i].typeCode
    ensures commitColumn.Failure? <==> columnToCommit !in names
    ensures commitColumn.Failure? ==> commitColumn.error == MissingCommitColumn(|metadata|, table)
    ensures commitColumn.Success? ==> IsLastMatch(names, columnToCommit, commitColumn.value)
  {
    names, types := [], [];
    var found: Option<nat> := None;
    for i := 1 to |metadata| + 1
      invariant |names| == |types| == i - 1
      invariant forall j :: 0 <= j < i - 1 ==> names[j] == metadata[j].name && types[j] == metadata[j].typeCode
      invariant found.None? <==> columnToCommit !in names
      invariant found.Some? ==> IsLastMatch(names, columnToCommit, found.value)
    {
      names := names + [metadata[i - 1].name];
      types := types + [metadata[i - 1].typeCode];
      if metadata[i - 1].name == columnToCommit {
        found := Some(i);
      }
    }
    if found.None? {
      return names, types, Failure(MissingCommitColumn(|metadata|, table));
    }
    return names, types, Success(found.value);
  }

  /**
   * What a call of readEvents does to the rows still to be read: how many it
   * consumes, whether it ran past the last row, the events or the error it
   * returns, and the commit column's text of the last row it mapped.
   */
  datatype Pull = Pull(outcome: Result<seq<AuditEvent>, ReadError>, consumed: nat, exhausted: bool, lastValue: Option<string>)

  /** `p`, after `events` were already read from as many rows before it. */
  function Extend(events: seq<AuditEvent>, p: Pull): Pull {
    Pull(if p.outcome.Success? then Success(events + p.outcome.value) else p.outcome,
         |events| + p.consumed, p.exhausted, p.lastValue)
  }

  /**
   * Reading up to `n` events from `rows`: stops after `n` events, at the
   * end of the rows, or at the first row that cannot be mapped.
   */
  function PullRows(names: seq<string>, types: seq<int>, commitColumn: nat, rows: seq<Row>, n: int, last: Option<string>): (p: Pull)
    requires |names| == |types| && 1 <= commitColumn <= |names| && Fits(rows, |names|)
    ensures p.consumed <= |rows|
    ensures p.consumed <= if n < 0 then 0 else n
    decreases |rows|
  {
    if n <= 0 then Pull(Success([]), 0, false, last)
    else if rows == [] then Pull(Success([]), 0, true, last)
    else
      match MapRow(names, types, rows[0])
      case Failure(e) => Pull(Failure(e), 1, false, last)
      case Success(event) =>
        Extend([event], PullRows(names, types, commitColumn, rows[1..], n - 1, CommitText(rows[0], commitColumn)))
  }

  function Min(a: int, b: int): int {
    if a < b then a else b
  }

  /**
   * A successful read returns one event per consumed row, each the mapping
   * of its row, and as many as were asked for unless the rows ran out; it
   * ran past the last row exactly when it returned fewer than asked for.
   */
  lemma {:induction false} PullRowsSuccess(names: seq<string>, types: seq<int>, commitColumn: nat, rows: seq<Row>, n: int, last: Option<string>)
    requires |names| == |types| && 1 <= commitColumn <= |names| && Fits(rows, |names|)
    ensures var p := PullRows(names, types, commitColumn, rows, n, last);
      p.outcome.Success? ==>
        |p.outcome.value| == p.consumed == Min(if n < 0 then 0 else n, |rows|) &&
        forall i :: 0 <= i < p.consumed ==> MapRow(names, types, rows[i]) == Success(p.outcome.value[i])
    ensures var p := PullRows(names, types, commitColumn, rows, n, last);
      p.exhausted <==> p.outcome.Success? && |p.outcome.value| < n
    decreases |rows|
  {
    if n > 0 && rows != [] && MapRow(names, types, rows[0]).Success? {
      var tail := rows[1..];
      PullRowsSuccess(names, types, commitColumn, tail, n - 1, CommitText(rows[0], commitColumn));
      var p := PullRows(names, types, commitColumn, rows, n, last);
      if p.outcome.Success? {
        forall i | 0 <= i < p.consumed
          ensures MapRow(names, types, rows[i]) == Success(p.outcome.value[i])
        {
          if i > 0 {
            assert rows[i] == tail[i - 1];
          }
        }
      }
    }
  }

  /**
   * A read fails exactly when one of the rows it reaches cannot be mapped;
   * it then stops right after the first such row, with that row's error.
   */
  lemma {:induction false} PullRowsFailure(names: seq<string>, types: seq<int>, commitColumn: nat, rows: seq<Row>, n: int, last: Option<string>)
    requires |names| == |types| && 1 <= commitColumn <= |names| && Fits(rows, |names|)
    ensures var p := PullRows(names, types, commitColumn, rows, n, last);
      p.outcome.Failure? <==>
        exists i :: 0 <= i < Min(n, |rows|) && MapRow(names, types, rows[i]).Failure?
    ensures var p := PullRows(names, types, commitColumn, rows, n, last);
      p.outcome.Failure? ==>
        1 <= p.consumed && MapRow(names, types, rows[p.consumed - 1]) == Failure(p.outcome.error) && !p.exhausted &&
        forall j :: 0 <= j < p.consumed - 1 ==> MapRow(names, types, rows[j]).Success?
    decreases |rows|
  {
    var p := PullRows(names, types, commitColumn, rows, n, last);
    if n > 0 && rows != [] && MapRow(names, types, rows[0]).Success? {
      var tail := rows[1..];
      PullRowsFailure(names, types, commitColumn, tail, n - 1, CommitText(rows[0], commitColumn));
      if p.outcome.Failure? {
        var i :| 0 <= i < Min(n - 1, |tail|) && MapRow(names, types, tail[i]).Failure?;
        assert rows[i + 1] == tail[i];
        assert rows[p.consumed - 1] == tail[p.consumed - 2];
        forall j | 0 <= j < p.consumed - 1
          ensures MapRow(names, types, rows[j]).Success?
        {
          if j > 0 {
            assert rows[j] == tail[j - 1];
          }
        }
      } else {
        forall i | 0 <= i < Min(n, |rows|)
          ensures MapRow(names, types, rows[i]).Success?
        {
          if i > 0 {
            assert rows[i] == tail[i - 1];
          }
        }
      }
    }
  }

  /**
   * The value remembered for the next commit is the commit column's text of
   * the last row that was mapped, or the earlier value when none was.
   */
  lemma {:induction false} PullRowsLastValue(names: seq<string>, types: seq<int>, commitColumn: nat, rows: seq<Row>, n: int, last: Option<string>)
    requires |names| == |types| && 1 <= commitColumn <= |names| && Fits(rows, |names|)
    ensures var p := PullRows(names, types, commitColumn, rows, n, last);
      var mapped := if p.outcome.Success? then p.consumed else p.consumed - 1;
      0 <= mapped <= |rows| &&
      (mapped == 0 ==> p.lastValue == last) &&
      (mapped > 0 ==> p.lastValue == CommitText(rows[mapped - 1], commitColumn))
    decreases |rows|
  {
    if n > 0 && rows != [] && MapRow(names, types, rows[0]).Success? {
      var tail := rows[1..];
      PullRowsLastValue(names, types, commitColumn, tail, n - 1, CommitText(rows[0], commitColumn));
      var p := PullRows(names, types, commitColumn, rows, n, last);
      var mapped := if p.outcome.Success? then p.consumed else p.consumed - 1;
      if mapped > 1 {
        assert rows[mapped - 1] == tail[mapped - 2];
      }
    }
  }

  lemma ExtendNothing(p: Pull)
    ensures Extend([], p) == p
  {
    if p.outcome.Success? {
      assert [] + p.outcome.value == p.outcome.value;
    }
  }

  lemma ExtendAppend(events: seq<AuditEvent>, event: AuditEvent, p: Pull)
    ensures Extend(events, Extend([event], p)) == Extend(events + [event], p)
  {
    if p.outcome.Success? {
      assert events + ([event] + p.outcome.value) == (events + [event]) + p.outcome.value;
    }
  }

  /**
   * One more row read by readEvents: with `events` already read and `rows`
   * still to read, the next row either adds its event or ends the read with
   * its error.
   */
  lemma PullRowsNext(names: seq<string>, types: seq<int>, commitColumn: nat, rows: seq<Row>, n: int,
                     whole: Pull, events: seq<AuditEvent>, last: Option<string>)
    requires |names| == |types| && 1 <= commitColumn <= |names| && Fits(rows, |names|)
    requires rows != [] && n > 0
    requires whole == Extend(events, PullRows(names, types, commitColumn, rows, n, last))
    ensures MapRow(names, types, rows[0]).Failure? ==>
      whole == Pull(Failure(MapRow(names, types, rows[0]).error), |events| + 1, false, last)
    ensures MapRow(names, types, rows[0]).Success? ==>
      whole == Extend(events + [MapRow(names, types, rows[0]).value],
                      PullRows(names, types, commitColumn, rows[1..], n - 1, CommitText(rows[0], commitColumn)))
  {
    match MapRow(names, types, rows[0])
    case Failure(e) =>
    case Success(event) =>
      ExtendAppend(events, event, PullRows(names, types, commitColumn, rows[1..], n - 1, CommitText(rows[0], commitColumn)));
  }

  /** readEvents stops with the events read so far when it has read enough or reaches the end of the rows. */
  lemma PullRowsStop(names: seq<string>, types: seq<int>, commitColumn: nat, rows: seq<Row>, n: int,
                     whole: Pull, events: seq<AuditEvent>, last: Option<string>)
    requires |names| == |types| && 1 <= commitColumn <= |names| && Fits(rows, |names|)
    requires n <= 0 || rows == []
    requires whole == Extend(events, PullRows(names, types, commitColumn, rows, n, last))
    ensures whole == Pull(Success(events), |events|, n > 0, last)
  {
    assert events + [] == events;
  }

  /**
   * The reader. Its table, column to commit and column metadata are fixed
   * when it opens; what changes is the result set being read, the value
   * waiting for the next commit, the committed value and the checkpoint
   * file.
   */
  class AuditEventReader {
    const table: string
    const columnToCommit: string
    const columnNames: seq<string>
    const columnTypes: seq<int>
    /** 1-based position of the column to commit. */
    const commitColumn: nat

    /** The rows of the open result set still to be read; `None` when no query is open. */
    var resultSet: Option<seq<Row>>
    /** The commit column's text of the last event read, waiting for a commit. */
    var lastValue: Option<string>
    /** The last committed value; the next query starts after it. */
    var committedValue: Option<string>
    /** The text of the checkpoint file; `None` while the file does not exist. */
    var checkpoint: Option<string>

    /** The column metadata is consistent; it is fixed when the reader opens. */
    predicate Valid() {
      |columnNames| == |columnTypes| && IsLastMatch(columnNames, columnToCommit, commitColumn)
    }

    /** The query the next result set is opened with. */
    function CurrentQuery(): string
      reads this
      requires Valid()
    {
      CreateQuery(None, table, columnToCommit, columnTypes[commitColumn - 1], committedValue)
    }

    /** The rows the next reads see: the open result set, or a fresh query's. */
    function Pending(db: Database): seq<Row>
      reads this
      requires Valid()
    {
      if resultSet.Some? then resultSet.value else db(CurrentQuery())
    }

    constructor (names: seq<string>, types: seq<int>, commitColumn: nat, checkpoint: Option<string>)
      requires |names| == |types| && IsLastMatch(names, AuditCommitColumn, commitColumn)
      ensures Valid()
      ensures table == AuditTable && columnToCommit == AuditCommitColumn
      ensures columnNames == names && columnTypes == types && this.commitColumn == commitColumn
      ensures resultSet == None && lastValue == None
      ensures committedValue == if checkpoint.Some? then LoadedValue(checkpoint.value) else None
      ensures this.checkpoint == if checkpoint.Some? then checkpoint else Some("")
    {
      table := AuditTable;
      columnToCommit := AuditCommitColumn;
      columnNames := names;
      columnTypes := types;
      this.commitColumn := commitColumn;
      resultSet := None;
      lastValue := None;
      committedValue := None;
      this.checkpoint := checkpoint;
      new;
      LoadLastCommittedValue();
    }

    /**
     * Reads the checkpoint file, creating it empty when it is missing; a
     * value longer than one character becomes the committed value, and
     * anything else leaves the committed value as it was.
     */
    method LoadLastCommittedValue()
      requires Valid()
      modifies this
      ensures Valid()
      ensures checkpoint == if old(checkpoint).Some? then old(checkpoint) else Some("")
      ensures committedValue ==
        if old(checkpoint).Some? && LoadedValue(old(checkpoint).value).Some? then LoadedValue(old(checkpoint).value)
        else old(committedValue)
      ensures resultSet == old(resultSet) && lastValue == old(lastValue)
    {
      if checkpoint.None? {
        checkpoint := Some("");
      } else {
        var value := LoadedValue(checkpoint.value);
        if value.Some? {
          committedValue := value;
        }
      }
    }

    /**
     * Opens a result set with the query that starts after the committed
     * value.
     */
    method RunQuery(db: Database)
      requires Valid()
      modifies this
      ensures Valid()
      ensures resultSet == Some(db(old(CurrentQuery())))
      ensures lastValue == old(lastValue) && committedValue == old(committedValue) && checkpoint == old(checkpoint)
    {
      resultSet := Some(db(CurrentQuery()));
    }

    /**
     * Reads the next row as an event, opening a result set first when none
     * is open. At the end of the rows it closes the result set and returns
     * no event; a row whose timestamp cannot be read is consumed and its
     * error returned; otherwise the commit column's text of the row waits
     * for the next commit.
     */
    method ReadEvent(db: Database) returns (r: Result<Option<AuditEvent>, ReadError>)
      requires Valid() && Fits(Pending(db), |columnNames|)
      modifies this
      ensures Valid()
      ensures committedValue == old(committedValue) && checkpoint == old(checkpoint)
      ensures old(Pending(db)) == [] ==> r == Success(None) && resultSet == None && lastValue == old(lastValue)
      ensures old(Pending(db)) != [] ==>
        var row := old(Pending(db))[0];
        |row| == |columnNames| && resultSet == Some(old(Pending(db))[1..]) &&
        match MapRow(columnNames, columnTypes, row)
        case Failure(e) => r == Failure(e) && lastValue == old(lastValue)
        case Success(event) => r == Success(Some(event)) && lastValue == CommitText(row, commitColumn)
    {
      if resultSet.None? {
        RunQuery(db);
      }
      var rows := resultSet.value;
      if rows == [] {
        resultSet := None;
        return Success(None);
      }
      var row := rows[0];
      resultSet := Some(rows[1..]);
      var event := BuildEvent(columnNames, columnTypes, row);
      if event.Failure? {
        return Failure(event.error);
      }
      lastValue := CommitText(row, commitColumn);
      return Success(Some(event.value));
    }

    /**
     * Reads up to `n` events, stopping early at the end of the rows; a row
     * that cannot be mapped ends the call with its error.
     */
    method ReadEvents(n: int, db: Database) returns (r: Result<seq<AuditEvent>, ReadError>)
      requires Valid() && Fits(Pending(db), |columnNames|)
      modifies this
      ensures Valid()
      ensures committedValue == old(committedValue) && checkpoint == old(checkpoint)
      ensures var p := PullRows(columnNames, columnTypes, commitColumn, old(Pending(db)), n, old(lastValue));
        r == p.outcome && lastValue == p.lastValue &&
        resultSet == if n <= 0 then old(resultSet) else if p.exhausted then None else Some(old(Pending(db))[p.consumed..])
    {
      if n <= 0 {
        return Success([]);
      }
      ghost var rows0 := Pending(db);
      ghost var last0 := lastValue;
      ghost var whole := PullRows(columnNames, columnTypes, commitColumn, rows0, n, last0);
      var events: seq<AuditEvent> := [];
      var i := 0;
      ghost var rest := rows0;
      assert rows0[0..] == rows0;
      ExtendNothing(whole);
      while i < n
        invariant Valid() && committedValue == old(committedValue) && checkpoint == old(checkpoint)
        invariant 0 <= i == |events| <= |rows0| && i <= n && rest == rows0[i..]
        invariant Pending(db) == rest && (i > 0 ==> resultSet == Some(rest))
        invariant Fits(rest, |columnNames|)
        invariant whole == Extend(events, PullRows(columnNames, columnTypes, commitColumn, rest, n - i, lastValue))
      {
        ghost var before := lastValue;
        var e := ReadEvent(db);
        if e.Success? && e.value.None? {
          PullRowsStop(columnNames, columnTypes, commitColumn, rest, n - i, whole, events, before);
          return Success(events);
        }
        PullRowsNext(columnNames, columnTypes, commitColumn, rest, n - i, whole, events, before);
        if e.Failure? {
          return Failure(e.error);
        }
        events := events + [e.value.value];
        i := i + 1;
        rest := rest[1..];
      }
      PullRowsStop(columnNames, columnTypes, commitColumn, rest, n - i, whole, events, lastValue);
      return Success(events);
    }

    /**
     * Makes the value of the last event read the committed value and writes
     * it to the checkpoint file, replacing what was there; with no value
     * waiting, nothing changes.
     */
    method Commit()
      requires Valid()
      modifies this
      ensures Valid()
      ensures lastValue == None && resultSet == old(resultSet)
      ensures old(lastValue).None? ==> committedValue == old(committedValue) && checkpoint == old(checkpoint)
      ensures old(lastValue).Some? ==> committedValue == old(lastValue) && checkpoint == old(lastValue)
      ensures old(lastValue).Some? ==>
        CurrentQuery() == CreateQuery(None, table, columnToCommit, columnTypes[commitColumn - 1], old(lastValue))
    {
      if lastValue.None? {
        return;
      }
      committedValue := lastValue;
      checkpoint := lastValue;
      lastValue := None;
    }
  }

  /**
   * Opens the reader on the audit table: reads its column metadata, fails
   * when the column to commit is missing, and loads the committed value
   * from the checkpoint file.
   */
  method Open(metadata: seq<Column>, checkpoint: Option<string>) returns (r: Result<AuditEventReader, OpenError>)
    ensures r.Failure? <==> forall i :: 0 <= i < |metadata| ==> metadata[i].name != AuditCommitColumn
    ensures r.Failure? ==> r.error == MissingCommitColumn(|metadata|, AuditTable)
    ensures r.Success? ==>
      fresh(r.value) && r.value.Valid() &&
      |r.value.columnNames| == |metadata| &&
      (forall i :: 0 <= i < |metadata| ==>
         r.value.columnNames[i] == metadata[i].name && r.value.columnTypes[i] == metadata[i].typeCode) &&
      r.value.table == AuditTable && r.value.columnToCommit == AuditCommitColumn &&
      IsLastMatch(r.value.columnNames, AuditCommitColumn, r.value.commitColumn) &&
      r.value.resultSet == None && r.value.lastValue == None &&
      r.value.checkpoint == (if checkpoint.Some? then checkpoint else Some("")) &&
      r.value.committedValue == (if checkpoint.Some? then LoadedValue(checkpoint.value) else None)
  {
    var names, types, commitColumn := GetColumnMetadata(AuditTable, AuditCommitColumn, metadata);
    if commitColumn.Failure? {
      return Failure(commitColumn.error);
    }
    var reader := new AuditEventReader(names, types, commitColumn.value, checkpoint);
    return Success(reader);
  }

  /**
   * A commit survives a restart: a reader built again on the checkpoint file
   * a commit wrote has the same columns and the same committed value, so its
   * first query starts where the old reader's next one would, whenever that
   * value is trimmed and has between 2 and 60 characters.
   */
  method CommitSurvivesRestart(reader: AuditEventReader) returns (restarted: AuditEventReader)
    requires reader.Valid() && reader.table == AuditTable && reader.columnToCommit == AuditCommitColumn
    requires reader.lastValue.Some? && IsTrimmed(reader.lastValue.value)
    requires 2 <= |reader.lastValue.value| <= ReadBufferLength
    modifies reader
    ensures fresh(restarted) && restarted.Valid()
    ensures reader.committedValue == old(reader.lastValue) && restarted.committedValue == reader.committedValue
    ensures restarted.table == reader.table && restarted.columnToCommit == reader.columnToCommit
    ensures restarted.columnNames == reader.columnNames && restarted.columnTypes == reader.columnTypes
    ensures restarted.commitColumn == reader.commitColumn && restarted.resultSet == None
  {
    reader.Commit();
    SaveLoadRoundTrip(reader.checkpoint.value);
    restarted := new AuditEventReader(reader.columnNames, reader.columnTypes, reader.commitColumn, reader.checkpoint);
  }

  /** Committing again right after a commit changes nothing: the second commit finds no value waiting. */
  method CommitTwice(reader: AuditEventReader)
    requires reader.Valid()
    modifies reader
    ensures reader.lastValue == None && reader.resultSet == old(reader.resultSet)
    ensures old(reader.lastValue).None? ==>
      reader.committedValue == old(reader.committedValue) && reader.checkpoint == old(reader.checkpoint)
    ensures old(reader.lastValue).Some? ==>
      reader.committedValue == old(reader.lastValue) && reader.checkpoint == old(reader.lastValue)
  {
    reader.Commit();
    reader.Commit();
  }
}

=== FILE: row_mapping.dfy ===
/**
 * How readEvent turns one fetched row into an audit event: one field per
 * column, its kind chosen by the column's type code, timestamps normalised to
 * millisecond text with a `T` separator.
 */
module RowMapping {
  import opened Wrappers
  import opened SqlTypes

  /**
   * One column value of a fetched row: SQL NULL, or the driver's renderings of
   * it (`text` from getString, `timestampText` from getTimestamp().toString()).
   */
  datatype Cell = SqlNull | Value(text: string, timestampText: string)

  type Row = seq<Cell>

  /**
   * A field of the event. Numeric and boolean conversions belong to the
   * driver, so those fields keep the cell they were read from.
   */
  datatype FieldValue =
    | IntField(cell: Cell)
    | BoolField(cell: Cell)
    | DoubleField(cell: Cell)
    | TimestampField(timestamp: string)
    | StringField(text: Option<string>)

  datatype Field = Field(name: string, value: FieldValue)

  datatype AuditEvent = AuditEvent(fields: seq<Field>)

  /** The runtime failures of the mapping: a NULL timestamp, or a timestamp text too short to cut. */
  datatype ReadError = NullTimestamp(column: string) | ShortTimestamp(column: string, text: string)

  /** Length of a normalised timestamp: `yyyy-mm-ddThh:mm:ss.fff`. */
  const TimestampFieldLength: nat := 23

  /** Every row of `rows` has one cell per column. */
  predicate Fits(rows: seq<Row>, width: nat) {
    forall i :: 0 <= i < |rows| ==> |rows[i]| == width
  }

  function ReplaceChar(s: string, from: char, to: char): (r: string)
    ensures |r| == |s|
    ensures forall i :: 0 <= i < |s| ==> r[i] == if s[i] == from then to else s[i]
  {
    if s == [] then [] else [if s[0] == from then to else s[0]] + ReplaceChar(s[1..], from, to)
  }

  /** The first 23 characters of a timestamp's text, every space turned into `T`. */
  function NormaliseTimestamp(ts: string): (r: string)
    requires |ts| >= TimestampFieldLength
    ensures |r| == TimestampFieldLength && ' ' !in r
    ensures forall i :: 0 <= i < TimestampFieldLength && ts[i] != ' ' ==> r[i] == ts[i]
    ensures forall i :: 0 <= i < TimestampFieldLength && ts[i] == ' ' ==> r[i] == 'T'
  {
    ReplaceChar(ts[..TimestampFieldLength], ' ', 'T')
  }

  /** A cell a timestamp column can be read from without a runtime failure. */
  predicate TimestampReadable(cell: Cell) {
    cell.Value? && |cell.timestampText| >= TimestampFieldLength
  }

  /** The field one column contributes, chosen by its type code. */
  function MapCell(name: string, code: int, cell: Cell): Result<FieldValue, ReadError> {
    match ColumnKindOf(code)
    case IntegerColumn => Success(IntField(cell))
    case BooleanColumn => Success(BoolField(cell))
    case FloatingColumn => Success(DoubleField(cell))
    case TimestampColumn =>
      if cell.SqlNull? then Failure(NullTimestamp(name))
      else if |cell.timestampText| < TimestampFieldLength then Failure(ShortTimestamp(name, cell.timestampText))
      else Success(TimestampField(NormaliseTimestamp(cell.timestampText)))
    case TextColumn => Success(StringField(if cell.SqlNull? then None else Some(cell.text)))
  }

  /**
   * One column: the integer, boolean and floating codes read the column's
   * own cell with getInt, getBoolean and getDouble; it fails exactly for a
   * timestamp column holding NULL or a text shorter than 23 characters, with
   * an error naming the column; otherwise a timestamp column gives the
   * normalised timestamp and a text column its getString text, or nothing
   * for NULL.
   */
  lemma MapCellOutcome(name: string, code: int, cell: Cell)
    ensures code in {SmallInt, TinyInt, Integer, BigInt} ==> MapCell(name, code, cell) == Success(IntField(cell))
    ensures code == Boolean ==> MapCell(name, code, cell) == Success(BoolField(cell))
    ensures code in {Numeric, Double, Float} ==> MapCell(name, code, cell) == Success(DoubleField(cell))
    ensures var r := MapCell(name, code, cell);
      (r.Failure? <==> ColumnKindOf(code) == TimestampColumn && !TimestampReadable(cell)) &&
      (r.Failure? ==> r.error.column == name && (r.error.NullTimestamp? <==> cell.SqlNull?))
    ensures var r := MapCell(name, code, cell);
      r.Success? ==>
        (r.value.TimestampField? <==> ColumnKindOf(code) == TimestampColumn) &&
        (r.value.TimestampField? ==>
           r.value.timestamp == NormaliseTimestamp(cell.timestampText) && |r.value.timestamp| == TimestampFieldLength) &&
        (r.value.StringField? <==> ColumnKindOf(code) == TextColumn) &&
        (r.value.StringField? ==> (r.value.text.None? <==> cell.SqlNull?) && (cell.Value? ==> r.value.text == Some(cell.text)))
  {
  }

  /** The fields of the first `k` columns, or the first failure among them. */
  function MapFields(names: seq<string>, types: seq<int>, row: Row, k: nat): Result<seq<Field>, ReadError>
    requires |names| == |types| == |row| && k <= |row|
  {
    if k == 0 then Success([])
    else match MapFields(names, types, row, k - 1)
      case Failure(e) => Failure(e)
      case Success(fields) =>
        match MapCell(names[k - 1], types[k - 1], row[k - 1])
        case Failure(e) => Failure(e)
        case Success(v) => Success(fields + [Field(names[k - 1], v)])
  }

  /** The event readEvent builds from a row (before the deserializer sees it). */
  function MapRow(names: seq<string>, types: seq<int>, row: Row): Result<AuditEvent, ReadError>
    requires |names| == |types| == |row|
  {
    match MapFields(names, types, row, |row|)
    case Failure(e) => Failure(e)
    case Success(fields) => Success(AuditEvent(fields))
  }

  /** The commit column's value as getString renders it (1-based position, as in JDBC). */
  function CommitText(row: Row, commitColumn: nat): Option<string>
    requires 1 <= commitColumn <= |row|
  {
    match row[commitColumn - 1]
    case SqlNull => None
    case Value(text, _) => Some(text)
  }

  lemma {:induction false} MapFieldsFailurePersists(names: seq<string>, types: seq<int>, row: Row, k: nat, m: nat)
    requires |names| == |types| == |row| && k <= m <= |row|
    requires MapFields(names, types, row, k).Failure?
    ensures MapFields(names, types, row, m) == MapFields(names, types, row, k)
    decreases m - k
  {
    if k < m {
      MapFieldsFailurePersists(names, types, row, k, m - 1);
    }
  }

  lemma {:induction false} MapFieldsSuccess(names: seq<string>, types: seq<int>, row: Row, k: nat)
    requires |names| == |types| == |row| && k <= |row|
    ensures MapFields(names, types, row, k).Success? <==>
      forall i :: 0 <= i < k ==> MapCell(names[i], types[i], row[i]).Success?
    ensures MapFields(names, types, row, k).Success? ==>
      var fields := MapFields(names, types, row, k).value;
      |fields| == k &&
      forall i :: 0 <= i < k ==> fields[i] == Field(names[i], MapCell(names[i], types[i], row[i]).value)
  {
    if k > 0 {
      MapFieldsSuccess(names, types, row, k - 1);
      if MapFields(names, types, row, k - 1).Failure? {
        MapFieldsFailurePersists(names, types, row, k - 1, k);
      }
    }
  }

  lemma {:induction false} MapFieldsFirstFailure(names: seq<string>, types: seq<int>, row: Row, k: nat)
    requires |names| == |types| == |row| && k <= |row|
    requires MapFields(names, types, row, k).Failure?
    ensures exists i :: 0 <= i < k && MapCell(names[i], types[i], row[i]) == Failure(MapFields(names, types, row, k).error)
                        && (forall j :: 0 <= j < i ==> MapCell(names[j], types[j], row[j]).Success?)
  {
    if MapFields(names, types, row, k - 1).Failure? {
      MapFieldsFirstFailure(names, types, row, k - 1);
    } else {
      MapFieldsSuccess(names, types, row, k - 1);
    }
  }

  /**
   * A mapped row has one field per column, in column order, named after the
   * column and holding what that column's type code selects.
   */
  lemma MapRowFields(names: seq<string>, types: seq<int>, row: Row)
    requires |names| == |types| == |row|
    requires MapRow(names, types, row).Success?
    ensures var fields := MapRow(names, types, row).value.fields;
      |fields| == |row| &&
      forall i :: 0 <= i < |row| ==> fields[i].name == names[i] && MapCell(names[i], types[i], row[i]) == Success(fields[i].value)
  {
    MapFieldsSuccess(names, types, row, |row|);
  }

  /**
   * Mapping a row fails exactly when some timestamp column holds NULL or a
   * text shorter than 23 characters, and then with the error of the first
   * such column.
   */
  lemma MapRowFailure(names: seq<string>, types: seq<int>, row: Row)
    requires |names| == |types| == |row|
    ensures MapRow(names, types, row).Failure? <==>
      exists i :: 0 <= i < |row| && ColumnKindOf(types[i]) == TimestampColumn && !TimestampReadable(row[i])
    ensures MapRow(names, types, row).Failure? ==>
      exists i :: 0 <= i < |row| && MapCell(names[i], types[i], row[i]) == Failure(MapRow(names, types, row).error)
                  && (forall j :: 0 <= j < i ==> MapCell(names[j], types[j], row[j]).Success?)
  {
    MapFieldsSuccess(names, types, row, |row|);
    if MapRow(names, types, row).Failure? {
      MapFieldsFirstFailure(names, types, row, |row|);
    }
  }

  /**
   * The column loop of readEvent: adds one field per column, in order, and
   * stops at the first column that cannot be read.
   */
  method BuildEvent(names: seq<string>, types: seq<int>, row: Row) returns (r: Result<AuditEvent, ReadError>)
    requires |names| == |types| == |row|
    ensures r == MapRow(names, types, row)
  {
    var fields: seq<Field> := [];
    for i := 0 to |row|
      invariant MapFields(names, types, row, i) == Success(fields)
    {
      var v := MapCell(names[i], types[i], row[i]);
      if v.Failure? {
        MapFieldsFailurePersists(names, types, row, i + 1, |row|);
        return Failure(v.error);
      }
      fields := fields + [Field(names[i], v.value)];
    }
    return Success(AuditEvent(fields));
  }
}

=== FILE: sql_types.dfy ===
/**
 * The JDBC type codes (java.sql.Types, plus Oracle's code for TIMESTAMP WITH
 * LOCAL TIME ZONE) on which the audit reader dispatches, and the two
 * classifications it derives from them: how a committed value is written into
 * a query, and which result-set getter reads a column.
 */
module SqlTypes {

  const TinyInt: int := -6
  const SmallInt: int := 5
  const Integer: int := 4
  const BigInt: int := -5
  const Boolean: int := 16
  const Numeric: int := 2
  const Float: int := 6
  const Double: int := 8
  const Varchar: int := 12
  const Timestamp: int := 93
  /** TIMESTAMP(6) WITH LOCAL TIME ZONE, reported by the Oracle driver. */
  const TimestampLocalTz: int := -102

  /** The type codes whose committed values are written without quotes. */
  const UnquotedCodes: set<int> := {Boolean, SmallInt, TinyInt, Integer, BigInt, Numeric, Double, Float}
  /** The type codes whose committed values are written as TIMESTAMP literals. */
  const TimestampCodes: set<int> := {Timestamp, TimestampLocalTz}

  /** How createQuery writes the committed value after `>`. */
  datatype LiteralStyle = Unquoted | TimestampLiteral | Quoted

  function LiteralStyleOf(code: int): LiteralStyle {
    if code in UnquotedCodes then Unquoted
    else if code in TimestampCodes then TimestampLiteral
    else Quoted
  }

  /** Which getter readEvent uses for a column, and so which kind of field it emits. */
  datatype ColumnKind = IntegerColumn | BooleanColumn | FloatingColumn | TimestampColumn | TextColumn

  function ColumnKindOf(code: int): ColumnKind {
    if code in {SmallInt, TinyInt, Integer, BigInt} then IntegerColumn
    else if code == Boolean then BooleanColumn
    else if code in {Numeric, Double, Float} then FloatingColumn
    else if code in TimestampCodes then TimestampColumn
    else TextColumn
  }

  /**
   * The two switches of the reader agree: a column whose values are read as
   * numbers or booleans is compared against an unquoted literal, a timestamp
   * column against a TIMESTAMP literal, and every other column against a
   * quoted string.
   */
  lemma LiteralStyleAgreesWithColumnKind(code: int)
    ensures LiteralStyleOf(code) == Unquoted <==> ColumnKindOf(code) in {IntegerColumn, BooleanColumn, FloatingColumn}
    ensures LiteralStyleOf(code) == TimestampLiteral <==> ColumnKindOf(code) == TimestampColumn
    ensures LiteralStyleOf(code) == Quoted <==> ColumnKindOf(code) == TextColumn
  {
  }
}

=== FILE: wrappers.dfy ===
/** Option and Result: the model's stand-ins for Java's null and for exceptions. */
module Wrappers {

  /** A value or nothing, where the source uses a nullable reference. */
  datatype Option<+T> = None | Some(value: T) {

    /** The wrapped value, or `default` when there is none. */
    function GetOr(default: T): T {
      match this
      case Some(v) => v
      case None => default
    }
  }

  /** A value or an error, where the source returns normally or throws. */
  datatype Result<+T, +E> = Success(value: T) | Failure(error: E)
}
